=== FILE: README.md ===
# Consistency tests of the dylint examples, in Dafny

`examples/src/lib.rs` is a set of six tests that keep the example lint libraries of the
repository consistent with each other. Five of them walk the enumeration of example
directories. Each skips the directories it excludes, asks a collaborator for a value (a test
run, the package version, the `.cargo/config.toml` document, the toolchain channel, the
`rust-toolchain` document) and panics at the first problem. The sixth walks the whole examples
tree and panics at the first forbidden file.

The model keeps that structure:

- Every test is a method with the source's own loop. It returns a `Verdict`: either `Pass`, or
  `Fail(at, fault)` where `at` is the position of the item that would have panicked and `fault`
  is why.
- What the collaborators report for a directory is given with it as an `Examples.Project`.
  The enumeration is a sequence of such projects or of walk errors.
- Each method is proved equal to a specification function:
  - `Verdicts.FirstFault` over per-item faults, for the tests that compare with a fixed
    reference or check each item on its own;
  - `Verdicts.BaselineVerdict` over per-item observations, for the tests that record the first
    value seen and require every later value to equal it.
- The properties the tests are meant to enforce are proved about those functions:
  - which inputs pass;
  - that the baseline comparisons mean "all equal" whatever the order;
  - that exclusions apply only to their own test;
  - that equivalent configurations compare equal once `target-dir` is resolved.

Paths are lists of components, as Rust's `std::path` sees them (`Paths`):
- `starts_with`, `ends_with`, `file_name`, `strip_prefix` and `join` work on components, not
  on text.
- `Components` parses Unix path text, and `Render` is `to_string_lossy` of a normal path.
  `Render` and `Components` are proved inverse on normal paths.
- `cargo_util::paths::normalize_path` is the lexical fold of `CargoPaths`.

TOML documents are `toml_edit`'s tables of items (`Toml`). `CargoConfig.DocumentMut` is the
parsed document that the configuration test edits in place.

## Model

| member | source | states |
|---|---|---|
| `Examples.RunExamples` | examples/src/lib.rs:11-32 | the verdict is the first fault in enumeration order: a walk error, a missing file name, or failing tests, with `testing/marker` skipped |
| `Examples.MarkerSuffixIsComponentsOfItsText` | examples/src/lib.rs:18 | the skipped suffix is the components of `testing/marker` |
| `Examples.RunSkipped` | examples/src/lib.rs:18-20 | the run skips a directory exactly when its path ends with the components `testing`, `marker` |
| `Examples.RunFault` | examples/src/lib.rs:14-30 | a walk error; else nothing for a `testing/marker` suffix; else a missing file name; else failing tests; else nothing |
| `Examples.RunPassIff` | examples/src/lib.rs:13-31 | the run passes exactly when every item is a directory that either ends with `testing/marker` or has a file name and passing tests |
| `Examples.CheckVersions` | examples/src/lib.rs:34-49 | the verdict is the first walk error, metadata failure, or version that differs from the workspace's, with `restriction` skipped; a mismatch carries both versions |
| `Examples.VersionSkipped` | examples/src/lib.rs:38-40 | the version test skips a directory exactly when its file name is `restriction` |
| `Examples.VersionFault` | examples/src/lib.rs:37-47 | a walk error; else nothing for `restriction`; else the metadata error; else a mismatch of workspace and package version when they differ |
| `Examples.VersionPassIff` | examples/src/lib.rs:36-48 | the version test passes exactly when every item is a directory that is named `restriction` or whose version equals the workspace version |
| `Examples.SingleVersionDeviation` | examples/src/lib.rs:47 | if exactly one included example deviates from the workspace version, the test fails at that example and reports both versions |
| `Examples.VersionExample` | examples/src/lib.rs:47 | versions 1.0.0, 1.0.0, 1.0.1 against 1.0.0 fail at the third example with the mismatch 1.0.0 / 1.0.1 |
| `Examples.VersionIsNotABaseline` | examples/src/lib.rs:47 | examples that agree with each other but not with the workspace fail the version test, while an all-equal baseline check would pass them |
| `Examples.CheckConfigs` | examples/src/lib.rs:51-87 | the verdict is the first-seen baseline verdict over the rewritten and serialized configurations, with `straggler` skipped; a read or parse error, or an unusable `target-dir`, fails at its item |
| `Examples.ConfigSkipped` | examples/src/lib.rs:56-58 | the configuration test skips a directory exactly when its file name is `straggler` |
| `Examples.ConfigObservation` | examples/src/lib.rs:55-80 | a walk error; else skipped for `straggler`; else the read or parse error; else an unusable `target-dir`; else the text of the rewritten document |
| `Examples.RewrittenConfig` | examples/src/lib.rs:65-79 | the rewritten document of a compared example holds its resolved `target-dir` and otherwise agrees with the parsed one |
| `Examples.ConfigPassIff` | examples/src/lib.rs:53-86 | the configuration test passes exactly when every included directory has a rewritable configuration and every two of them serialize to the same text |
| `Examples.EquivalentConfigsGiveSameText` | examples/src/lib.rs:62-82 | two configurations that agree apart from `build.target-dir`, whose values resolve to the same location, produce the same compared text |
| `CargoConfig.SameLocationSameRewrite` | examples/src/lib.rs:65-82 | two documents that agree apart from `build.target-dir`, whose values resolve to the same location, rewrite to the same document, whatever the example roots |
| `Examples.ConfigPassIffSameDocuments` | examples/src/lib.rs:62-85 | when serialization tells documents apart, the configuration test passes exactly when all included rewritten documents are equal |
| `Examples.ConfigOrderIndependent` | examples/src/lib.rs:54-86 | reordering the examples does not change whether the configuration test passes |
| `Examples.CheckChannels` | examples/src/lib.rs:89-107 | the verdict is the first-seen baseline verdict over the toolchain channels, with `marker` and `straggler` skipped |
| `Examples.ChannelSkipped` | examples/src/lib.rs:94-99 | the channel test skips a directory exactly when its file name is `marker` or `straggler` |
| `Examples.ChannelObservation` | examples/src/lib.rs:93-100 | a walk error; else skipped for `marker` and `straggler`; else the channel query's error; else the channel |
| `Examples.ChannelPassIff` | examples/src/lib.rs:91-106 | the channel test passes exactly when every included directory reports a channel and every two of them report the same one |
| `Examples.ChannelOrderIndependent` | examples/src/lib.rs:92-106 | reordering the examples does not change whether the channel test passes |
| `Examples.FullyExcludedPasses` | examples/src/lib.rs:53-58 | when every example is excluded, the configuration and channel tests pass |
| `Examples.ChannelExclusionKeepsVersionCheck` | examples/src/lib.rs:38-40 | an example skipped by the channel test still fails the version test when its version is wrong |
| `Examples.VersionExclusionKeepsChannelCheck` | examples/src/lib.rs:94-99 | an example skipped by the version test still fails the channel test when its channel differs from another included example's |
| `Examples.CheckComponents` | examples/src/lib.rs:109-131 | the verdict is the first item whose toolchain file is unreadable, whose `toolchain.components` is missing or not an array, holds a non-string, or lists `rust-src` |
| `Examples.ComponentsArray` | examples/src/lib.rs:116-122 | the array under `toolchain.components`, when `toolchain` is a table and `components` an array value |
| `Examples.ComponentFault` | examples/src/lib.rs:114-129 | a walk error; else the read or parse error; else a missing array; else a non-string element; else `rust-src` listed; else nothing |
| `Examples.ComponentFaultIff` | examples/src/lib.rs:116-129 | a parsed toolchain document fails exactly when `toolchain.components` is missing or not an array, holds a non-string element, or holds the string `rust-src` |
| `Examples.UniformAt` | examples/src/lib.rs:81-85 | "no item broken and all seen values equal" is the same condition over positions and over members |
| `Verdicts.FirstFault` | examples/src/lib.rs:36-48 | passes exactly when no item has a fault; otherwise reports the earliest item with a fault, and every earlier item has none |
| `Verdicts.BaselineVerdict` | examples/src/lib.rs:81-85 | the first fault when each seen value is compared with the first value seen before it |
| `Verdicts.BaselinePassIff` | examples/src/lib.rs:100-105 | a first-seen baseline check passes exactly when no item is broken and all seen values are equal |
| `Verdicts.BaselineSameMembers` | examples/src/lib.rs:100-105 | whether a baseline check passes depends only on which observations occur |
| `Verdicts.BaselineOrderIndependent` | examples/src/lib.rs:100-105 | reordering the items does not change whether a baseline check passes |
| `Verdicts.MismatchAgainstFirstSeen` | examples/src/lib.rs:81-85 | a reported mismatch compares the first value seen in the whole enumeration with the value of the reported item, and they differ |
| `Verdicts.FirstSeenAppend` | examples/src/lib.rs:81-85 | the baseline recorded over a concatenation is the first part's, if it has one, else the second part's |
| `Verdicts.FirstSeenExtend` | examples/src/lib.rs:101-105 | one more item sets the baseline only if none was recorded before |
| `Verdicts.FirstSeenStable` | examples/src/lib.rs:81-85 | once recorded, the baseline is the baseline of all the items |
| `Verdicts.FirstSeenOccurs` | examples/src/lib.rs:84 | the recorded baseline is the value of some item |
| `CargoConfig.TargetDir` | examples/src/lib.rs:65-72 | the string under `build.target-dir`, when `build` is a table and `target-dir` a string value |
| `CargoConfig.ResolvedPath` | examples/src/lib.rs:73 | the normalization of the example directory joined with the components of `target-dir` |
| `CargoConfig.ResolvedTargetDir` | examples/src/lib.rs:73-76 | the text of the resolved path |
| `CargoConfig.RewriteTargetDir` | examples/src/lib.rs:65-79 | the rewrite succeeds exactly when `build` is a table holding a string `target-dir`; it then stores the resolved path's text there and changes nothing else |
| `CargoConfig.DocumentMut.constructor` | examples/src/lib.rs:61 | the document holds the parsed table |
| `CargoConfig.DocumentMut.ResolveTargetDir` | examples/src/lib.rs:65-79 | the in-place edit succeeds exactly when `build.target-dir` is a string, and leaves the rewritten document, or the document unchanged |
| `CargoConfig.ResolvedPathShape` | examples/src/lib.rs:73 | the resolved `target-dir` is a normal path with clean names |
| `CargoConfig.RewriteAgreement` | examples/src/lib.rs:65-82 | two documents rewrite to the same document exactly when they agree apart from `build.target-dir` and their values resolve to the same location |
| `CargoConfig.ResolvedExample` | examples/src/lib.rs:73-76 | `target/foo` in the example `/examples/A` becomes `/examples/A/target/foo` |
| `CargoPaths.NormalizeOnto` | examples/src/lib.rs:73 | the normalization loop yields a normal path, keeps names clean and keeps a root |
| `CargoPaths.Normalize` | examples/src/lib.rs:73 | the normalization loop started from an empty path |
| `CargoPaths.NormalizeShape` | examples/src/lib.rs:73 | a normalized path is normal, has clean names when its input does, and keeps a root |
| `CargoPaths.NormalizeFixesNormal` | examples/src/lib.rs:73 | a normal path is its own normalization |
| `CargoPaths.NormalizeIdempotent` | examples/src/lib.rs:73 | normalizing twice is normalizing once |
| `CargoPaths.ParentOfRootIsRoot` | examples/src/lib.rs:73 | `..` right after the root stays at the root |
| `Paths.Components` | examples/src/lib.rs:18 | parsed components have clean names, and only the first can be a root or `.` |
| `Paths.Render` | examples/src/lib.rs:74 | the text of a normal path: a leading `/` for a root, names separated by `/` |
| `Paths.FileName` | examples/src/lib.rs:21 | the last component, when it is a name |
| `Paths.StartsWith` | examples/src/lib.rs:155 | the base is a component-wise prefix |
| `Paths.EndsWith` | examples/src/lib.rs:159 | the child is a component-wise suffix |
| `Paths.StripPrefix` | examples/src/lib.rs:142 | what follows the base, when the path starts with it |
| `Paths.Join` | examples/src/lib.rs:73 | an absolute path replaces the base; an empty base gives the path itself; otherwise the path follows the base, without its leading `.` |
| `Paths.RenderComponents` | examples/src/lib.rs:73-76 | parsing the text of a normal path with clean names gives the path back |
| `Paths.RenderRooted` | examples/src/lib.rs:73-76 | a root followed by names renders as `/` followed by the names joined by `/` |
| `Paths.RenderInjective` | examples/src/lib.rs:73-76 | two normal paths with clean names have the same text exactly when they are equal |
| `Paths.JoinCleanNames` | examples/src/lib.rs:73 | joining two paths with clean names gives a path with clean names |
| `Toml.Get` | examples/src/lib.rs:67 | the item under a key, unless absent or empty |
| `Toml.AsTable` | examples/src/lib.rs:68 | only a `[table]` item is a table |
| `Toml.AsArray` | examples/src/lib.rs:121 | the elements of an item holding an array value |
| `Toml.AsStr` | examples/src/lib.rs:72 | the string of an item holding a string value |
| `Toml.AllStrings` | examples/src/lib.rs:123-127 | collecting the elements as strings succeeds exactly when every element is a string, and then gives their strings in order |
| `ForbiddenPaths.Relative` | examples/src/lib.rs:142 | the entry without a leading `.` component, or the entry itself |
| `ForbiddenPaths.InAllowedDirectory` | examples/src/lib.rs:155 | the entry starts with one of the allowed directories |
| `ForbiddenPaths.PathFault` | examples/src/lib.rs:140-166 | a walk error; else `.gitignore` as file name; else nothing inside an allowed directory; else the first forbidden suffix it ends with; else nothing |
| `ForbiddenPaths.ScanEntry` | examples/src/lib.rs:141-166 | one entry's result is the forbidden-name fault, or, outside the allowed directories, the first forbidden suffix it ends with, or nothing |
| `ForbiddenPaths.ScanForbiddenPaths` | examples/src/lib.rs:133-168 | the verdict is the first walk error or forbidden entry in walk order |
| `ForbiddenPaths.FirstSuffix` | examples/src/lib.rs:158-165 | the index found is the first suffix the path ends with; nothing is found exactly when it ends with none |
| `ForbiddenPaths.AllowedDirectoryIff` | examples/src/lib.rs:155 | a path is in an allowed directory exactly when it starts with the component `experimental` or `testing` |
| `ForbiddenPaths.SpecificSuffixIff` | examples/src/lib.rs:158-159 | a specific suffix matches exactly when the path ends with `.cargo/config.toml` or `rust-toolchain` |
| `ForbiddenPaths.PathFaultIff` | examples/src/lib.rs:142-166 | an entry is forbidden exactly when its name is `.gitignore`, or it lies outside `experimental` and `testing` and ends with `.cargo/config.toml` or `rust-toolchain` |
| `ForbiddenPaths.AllowedDirectoriesExemptOnlyFromSuffixes` | examples/src/lib.rs:144-166 | inside an allowed directory only `.gitignore` is reported |
| `ForbiddenPaths.ScannerExamples` | examples/src/lib.rs:135-166 | `testing/marker/.gitignore` is forbidden, `testing/marker/.cargo/config.toml` is not, and `experimental2/x/.cargo/config.toml` is |
| `ForbiddenPaths.ConfigSuffixIsComponentsOfItsText` | examples/src/lib.rs:136 | the suffix list entry is the components of `.cargo/config.toml` |
| `ForbiddenPaths.ToolchainSuffixIsComponentsOfItsText` | examples/src/lib.rs:136 | the suffix list entry is the components of `rust-toolchain` |
| `ForbiddenPaths.ExperimentalIsComponentsOfItsText` | examples/src/lib.rs:137 | the allowed directory entry is the components of `experimental` |
| `ForbiddenPaths.TestingIsComponentsOfItsText` | examples/src/lib.rs:137 | the allowed directory entry is the components of `testing` |

Every test stops at its first failure:

- The forbidden-path scan, too, reports only the first forbidden entry in walk order. It does
  not collect all violations.
- A version, configuration or channel mismatch carries the two values that differ, and the
  verdict's position identifies the example. The panic message itself prints only the values.

## Left out

- `dylint_internal::examples::iter` is not part of this model. The enumeration each test walks
  is its `entries` parameter. What `iter(false)` (the run and version tests) and `iter(true)`
  (the configuration, channel and component tests) yield, and the walk order, are the caller's.
  A failing `iter` is an `Err` first entry, giving `Fail(0, Unreadable(_))`.
- Running `cargo test --lib --tests` is not modelled. Neither are the environment sanitizing
  and the command construction. Its outcome is the `testsPass` field of a project.
- `cargo_metadata::MetadataCommand` and `package_with_root` are not modelled. The version they
  yield, or their error, is the `version` field. `env!("CARGO_PKG_VERSION")` is the `workspace`
  parameter.
- `clippy_utils::toolchain_channel` is not modelled. Its result is the `channel` field.
- File reads and TOML parsing are not modelled. Reading and parsing `.cargo/config.toml` and
  `rust-toolchain` give the `config` and `toolchain` fields, or an error. Serialization
  (`DocumentMut::to_string`) is the `serialize` parameter. Formatting, comments and key order
  are not represented.
- `WalkDir` is not modelled. The walk of `.` is the `entries` parameter of
  `ForbiddenPaths.ScanForbiddenPaths`, in walk order, with its errors.
- `cargo_util::paths::normalize_path`, whose source is not part of this model, is modelled by
  `CargoPaths.Normalize`, which follows its lexical algorithm: `.` vanishes, `..` pops a name,
  and a root resets the path. It follows the version where `..` that cannot pop is dropped; it
  does not follow the version that keeps leading `..` in relative paths.
- Paths are Unix paths. Windows prefixes and non-UTF-8 file names are not represented, so
  `to_string_lossy` never replaces characters.
- The panic messages' text is not modelled. A verdict carries the fault's kind and values
  instead.

=== FILE: checks.dfy ===
/**
 * The consistency tests over the example projects. Each test walks the enumeration of
 * example directories in order, skips the directories it excludes, asks its collaborator for
 * a value, and stops at the first failure. What the collaborators report for a directory is
 * given with it, as a `Project`.
 */
module Examples {
  import opened Wrappers
  import opened Paths
  import opened Toml
  import opened CargoConfig
  import opened Verdicts

  /** What the collaborators report for one example directory. */
  datatype Project = Project(
    path: Path,                        // the example directory
    version: Result<string, string>,   // the package version from `cargo metadata`
    config: Result<Table, string>,     // `.cargo/config.toml`, read and parsed
    channel: Result<string, string>,   // `toolchain_channel`
    toolchain: Result<Table, string>,  // `rust-toolchain`, read and parsed
    testsPass: bool)                   // whether `cargo test --lib --tests` succeeds in it

  /** One item of the enumeration: a directory, or the error met while walking. */
  type Entry = Result<Project, string>

  // ---------------------------------------------------------------------------------------
  // Exclusions, one list per test

  const MarkerSuffix: Path := [Normal("testing"), Normal("marker")]

  /** The skipped suffix is the components of the text `testing/marker`. */
  lemma MarkerSuffixIsComponentsOfItsText()
    ensures Components("testing/marker") == MarkerSuffix
  {
    assert CleanName("testing") && CleanName("marker");
    assert Render(MarkerSuffix) == "testing/marker";
    RenderComponents(MarkerSuffix);
  }

  /** The build-and-test run skips the `testing/marker` example. */
  predicate RunSkipped(p: Path) { EndsWith(p, MarkerSuffix) }

  /** The version test skips directories named `restriction`. */
  predicate VersionSkipped(p: Path) { FileName(p) == Some("restriction") }

  /** The configuration test skips directories named `straggler`. */
  predicate ConfigSkipped(p: Path) { FileName(p) == Some("straggler") }

  /** The channel test skips directories named `marker` or `straggler`. */
  predicate ChannelSkipped(p: Path) {
    FileName(p) == Some("marker") || FileName(p) == Some("straggler")
  }

  // The component test skips nothing.

  // ---------------------------------------------------------------------------------------
  // Build and test every example

  function RunFault(e: Entry): Option<Fault> {
    match e
    case Err(msg) => Some(Unreadable(msg))
    case Ok(p) =>
      if RunSkipped(p.path) then None
      else
        match FileName(p.path)
        case None => Some(NoFileName)
        case Some(name) => if p.testsPass then None else Some(TestsFailed(name))
  }

  function RunFaults(entries: seq<Entry>): seq<Option<Fault>>
  {
    seq(|entries|, i requires 0 <= i < |entries| => RunFault(entries[i]))
  }

  /** The `examples` test: runs the tests of every example except `testing/marker`. */
  method RunExamples(entries: seq<Entry>) returns (v: Verdict)
    ensures v == FirstFault(RunFaults(entries))
  {
    for i := 0 to |entries|
      invariant forall j | 0 <= j < i :: RunFault(entries[j]).None?
    {
      if entries[i].Err? {
        v := Fail(i, Unreadable(entries[i].error));
        FirstFaultAt(RunFaults(entries), i);
        return;
      }
      var project := entries[i].value;
      if RunSkipped(project.path) {
        continue;
      }
      var name := FileName(project.path);
      if name.None? {
        v := Fail(i, NoFileName);
        FirstFaultAt(RunFaults(entries), i);
        return;
      }
      if !project.testsPass {
        v := Fail(i, TestsFailed(name.value));
        FirstFaultAt(RunFaults(entries), i);
        return;
      }
    }
    v := Pass;
  }

  /** The run passes exactly when every item is a directory that is skipped or has a name and
      passing tests. */
  lemma RunPassIff(entries: seq<Entry>)
    ensures FirstFault(RunFaults(entries)).Pass?
        <==> forall i | 0 <= i < |entries| ::
               && entries[i].Ok?
               && (RunSkipped(entries[i].value.path)
                   || (FileName(entries[i].value.path).Some? && entries[i].value.testsPass))
  {
    var fs := RunFaults(entries);
    assert |fs| == |entries| && forall i | 0 <= i < |entries| :: fs[i] == RunFault(entries[i]);
  }

  // ---------------------------------------------------------------------------------------
  // Every example has the workspace's version

  function VersionFault(e: Entry, workspace: string): Option<Fault> {
    match e
    case Err(msg) => Some(Unreadable(msg))
    case Ok(p) =>
      if VersionSkipped(p.path) then None
      else
        match p.version
        case Err(msg) => Some(Collaborator(msg))
        case Ok(v) => if workspace == v then None else Some(Mismatch(workspace, v))
  }

  function VersionFaults(entries: seq<Entry>, workspace: string): seq<Option<Fault>>
  {
    seq(|entries|, i requires 0 <= i < |entries| => VersionFault(entries[i], workspace))
  }

  /** The `examples_have_same_version_as_workspace` test: every example's version equals the
      workspace's own, a fixed reference. */
  method CheckVersions(entries: seq<Entry>, workspace: string) returns (v: Verdict)
    ensures v == FirstFault(VersionFaults(entries, workspace))
  {
    for i := 0 to |entries|
      invariant forall j | 0 <= j < i :: VersionFault(entries[j], workspace).None?
    {
      if entries[i].Err? {
        v := Fail(i, Unreadable(entries[i].error));
        FirstFaultAt(VersionFaults(entries, workspace), i);
        return;
      }
      var project := entries[i].value;
      if VersionSkipped(project.path) {
        continue;
      }
      if project.version.Err? {
        v := Fail(i, Collaborator(project.version.error));
        FirstFaultAt(VersionFaults(entries, workspace), i);
        return;
      }
      if workspace != project.version.value {
        v := Fail(i, Mismatch(workspace, project.version.value));
        FirstFaultAt(VersionFaults(entries, workspace), i);
        return;
      }
    }
    v := Pass;
  }

  /** The version test passes exactly when every item is a directory that is skipped or whose
      version is the workspace version. */
  lemma VersionPassIff(entries: seq<Entry>, workspace: string)
    ensures FirstFault(VersionFaults(entries, workspace)).Pass?
        <==> forall i | 0 <= i < |entries| ::
               && entries[i].Ok?
               && (VersionSkipped(entries[i].value.path) || entries[i].value.version == Ok(workspace))
  {
    var fs := VersionFaults(entries, workspace);
    assert |fs| == |entries| && forall i | 0 <= i < |entries| :: fs[i] == VersionFault(entries[i], workspace);
  }

  // ---------------------------------------------------------------------------------------
  // Every example has an equivalent `.cargo/config.toml`

  /** The text the configuration test compares for one item, or why it stops there. */
  function ConfigObservation(e: Entry, serialize: Table -> string): Observation {
    match e
    case Err(msg) => Broken(Unreadable(msg))
    case Ok(p) =>
      if ConfigSkipped(p.path) then Skipped
      else
        match p.config
        case Err(msg) => Broken(Collaborator(msg))
        case Ok(doc) =>
          match RewriteTargetDir(doc, p.path)
          case None => Broken(TargetDirUnusable)
          case Some(rewritten) => Seen(serialize(rewritten))
  }

  function ConfigObservations(entries: seq<Entry>, serialize: Table -> string): seq<Observation>
  {
    seq(|entries|, i requires 0 <= i < |entries| => ConfigObservation(entries[i], serialize))
  }

  /** The `examples_have_equivalent_cargo_configs` test: after each configuration's
      `target-dir` is made absolute, every configuration's text equals the first one's.
      `serialize` is the document's `to_string`. */
  method CheckConfigs(entries: seq<Entry>, serialize: Table -> string) returns (v: Verdict)
    ensures v == BaselineVerdict(ConfigObservations(entries, serialize))
  {
    ghost var obs := ConfigObservations(entries, serialize);
    ghost var fs := BaselineFaults(obs);
    assert |fs| == |obs| == |entries|;
    var prev: Option<string> := None;
    for i := 0 to |entries|
      invariant prev == FirstSeen(obs[..i])
      invariant forall j | 0 <= j < i :: fs[j].None?
    {
      FirstSeenExtend(obs, i);
      assert obs[i] == ConfigObservation(entries[i], serialize);
      assert fs[i] == StepFault(obs[i], FirstSeen(obs[..i]));
      if entries[i].Err? {
        v := Fail(i, Unreadable(entries[i].error));
        FirstFaultAt(fs, i);
        return;
      }
      var project := entries[i].value;
      if ConfigSkipped(project.path) {
        continue;
      }
      if project.config.Err? {
        v := Fail(i, Collaborator(project.config.error));
        FirstFaultAt(fs, i);
        return;
      }
      var document := new DocumentMut(project.config.value);
      var ok := document.ResolveTargetDir(project.path);
      if !ok {
        v := Fail(i, TargetDirUnusable);
        FirstFaultAt(fs, i);
        return;
      }
      var curr := serialize(document.root);
      if prev.Some? {
        if prev.value != curr {
          v := Fail(i, Mismatch(prev.value, curr));
          FirstFaultAt(fs, i);
          return;
        }
      } else {
        prev := Some(curr);
      }
    }
    v := Pass;
  }

  // ---------------------------------------------------------------------------------------
  // Every example uses the same toolchain channel

  function ChannelObservation(e: Entry): Observation {
    match e
    case Err(msg) => Broken(Unreadable(msg))
    case Ok(p) =>
      if ChannelSkipped(p.path) then Skipped
      else
        match p.channel
        case Err(msg) => Broken(Collaborator(msg))
        case Ok(c) => Seen(c)
  }

  function ChannelObservations(entries: seq<Entry>): seq<Observation>
  {
    seq(|entries|, i requires 0 <= i < |entries| => ChannelObservation(entries[i]))
  }

  /** The `examples_use_same_toolchain_channel` test: every channel equals the first one. */
  method CheckChannels(entries: seq<Entry>) returns (v: Verdict)
    ensures v == BaselineVerdict(ChannelObservations(entries))
  {
    ghost var obs := ChannelObservations(entries);
    ghost var fs := BaselineFaults(obs);
    assert |fs| == |obs| == |entries|;
    var prev: Option<string> := None;
    for i := 0 to |entries|
      invariant prev == FirstSeen(obs[..i])
      invariant forall j | 0 <= j < i :: fs[j].None?
    {
      FirstSeenExtend(obs, i);
      assert obs[i] == ChannelObservation(entries[i]);
      assert fs[i] == StepFault(obs[i], FirstSeen(obs[..i]));
      if entries[i].Err? {
        v := Fail(i, Unreadable(entries[i].error));
        FirstFaultAt(fs, i);
        return;
      }
      var project := entries[i].value;
      if ChannelSkipped(project.path) {
        continue;
      }
      if project.channel.Err? {
        v := Fail(i, Collaborator(project.channel.error));
        FirstFaultAt(fs, i);
        return;
      }
      var curr := project.channel.value;
      if prev.Some? {
        if prev.value != curr {
          v := Fail(i, Mismatch(prev.value, curr));
          FirstFaultAt(fs, i);
          return;
        }
      } else {
        prev := Some(curr);
      }
    }
    v := Pass;
  }

  // ---------------------------------------------------------------------------------------
  // No example requires `rust-src`

  /** `toolchain.components` as an array, when `toolchain` is a table holding one. */
  function ComponentsArray(doc: Table): Option<seq<Value>> {
    var toolchain := AsTable(Get(doc, "toolchain"));
    if toolchain.None? then None else AsArray(Get(toolchain.value, "components"))
  }

  function ComponentFault(e: Entry): Option<Fault> {
    match e
    case Err(msg) => Some(Unreadable(msg))
    case Ok(p) =>
      match p.toolchain
      case Err(msg) => Some(Collaborator(msg))
      case Ok(doc) =>
        match ComponentsArray(doc)
        case None => Some(ComponentsUnusable)
        case Some(listed) =>
          match AllStrings(listed)
          case None => Some(ComponentNotString)
          case Some(components) => if "rust-src" in components then Some(RustSrcRequired) else None
  }

  function ComponentFaults(entries: seq<Entry>): seq<Option<Fault>>
  {
    seq(|entries|, i requires 0 <= i < |entries| => ComponentFault(entries[i]))
  }

  /** The `examples_do_not_require_rust_src` test, over every example. */
  method CheckComponents(entries: seq<Entry>) returns (v: Verdict)
    ensures v == FirstFault(ComponentFaults(entries))
  {
    for i := 0 to |entries|
      invariant forall j | 0 <= j < i :: ComponentFault(entries[j]).None?
    {
      if entries[i].Err? {
        v := Fail(i, Unreadable(entries[i].error));
        FirstFaultAt(ComponentFaults(entries), i);
        return;
      }
      var project := entries[i].value;
      if project.toolchain.Err? {
        v := Fail(i, Collaborator(project.toolchain.error));
        FirstFaultAt(ComponentFaults(entries), i);
        return;
      }
      var listed := ComponentsArray(project.toolchain.value);
      if listed.None? {
        v := Fail(i, ComponentsUnusable);
        FirstFaultAt(ComponentFaults(entries), i);
        return;
      }
      var components := AllStrings(listed.value);
      if components.None? {
        v := Fail(i, ComponentNotString);
        FirstFaultAt(ComponentFaults(entries), i);
        return;
      }
      if "rust-src" in components.value {
        v := Fail(i, RustSrcRequired);
        FirstFaultAt(ComponentFaults(entries), i);
        return;
      }
    }
    v := Pass;
  }

  /** An example's toolchain fails the component test exactly when `toolchain.components` is
      missing or not an array, holds a non-string, or holds the string `rust-src`. */
  lemma ComponentFaultIff(p: Project)
    requires p.toolchain.Ok?
    ensures var listed := ComponentsArray(p.toolchain.value);
      ComponentFault(Ok(p)).Some?
      <==> || listed.None?
           || (exists k | 0 <= k < |listed.value| :: !listed.value[k].Str?)
           || Str("rust-src") in listed.value
  {
    var listed := ComponentsArray(p.toolchain.value);
    if listed.Some? {
      var strings := AllStrings(listed.value);
      if strings.Some? {
        if "rust-src" in strings.value {
          var k :| 0 <= k < |strings.value| && strings.value[k] == "rust-src";
          assert listed.value[k] == Str("rust-src");
        }
        if Str("rust-src") in listed.value {
          var k :| 0 <= k < |listed.value| && listed.value[k] == Str("rust-src");
          assert strings.value[k] == "rust-src";
        }
      }
    }
  }

  // ---------------------------------------------------------------------------------------
  // Properties across the tests

  /** The baseline condition restated over positions. */
  lemma UniformAt(obs: seq<Observation>)
    ensures Uniform(obs)
        <==> && (forall i | 0 <= i < |obs| :: !obs[i].Broken?)
             && (forall i, j | 0 <= i < |obs| && 0 <= j < |obs| && obs[i].Seen? && obs[j].Seen? ::
                   obs[i].value == obs[j].value)
  {
    if forall i, j | 0 <= i < |obs| && 0 <= j < |obs| && obs[i].Seen? && obs[j].Seen? ::
         obs[i].value == obs[j].value
    {
      forall o1, o2 | o1 in obs && o2 in obs && o1.Seen? && o2.Seen? ensures o1.value == o2.value {
        var i :| 0 <= i < |obs| && obs[i] == o1;
        var j :| 0 <= j < |obs| && obs[j] == o2;
      }
    }
    if Uniform(obs) {
      forall i, j | 0 <= i < |obs| && 0 <= j < |obs| && obs[i].Seen? && obs[j].Seen?
        ensures obs[i].value == obs[j].value
      {
        assert obs[i] in obs && obs[j] in obs;
      }
    }
  }

  /** The channel test passes exactly when every item is a directory, no included directory
      fails to report a channel, and every two included directories report the same channel. */
  lemma ChannelPassIff(entries: seq<Entry>)
    ensures BaselineVerdict(ChannelObservations(entries)).Pass?
        <==> && (forall i | 0 <= i < |entries| ::
                   entries[i].Ok? && (ChannelSkipped(entries[i].value.path) || entries[i].value.channel.Ok?))
             && (forall i, j | 0 <= i < |entries| && 0 <= j < |entries|
                   && entries[i].Ok? && !ChannelSkipped(entries[i].value.path) && entries[i].value.channel.Ok?
                   && entries[j].Ok? && !ChannelSkipped(entries[j].value.path) && entries[j].value.channel.Ok?
                   :: entries[i].value.channel == entries[j].value.channel)
  {
    var obs := ChannelObservations(entries);
    assert |obs| == |entries| && forall i | 0 <= i < |entries| :: obs[i] == ChannelObservation(entries[i]);
    BaselinePassIff(obs);
    UniformAt(obs);
  }

  /** The configuration test passes exactly when every item is a directory, every included
      directory has a rewritable configuration, and every two included directories' rewritten
      configurations serialize to the same text. */
  lemma ConfigPassIff(entries: seq<Entry>, serialize: Table -> string)
    ensures BaselineVerdict(ConfigObservations(entries, serialize)).Pass?
        <==> && (forall i | 0 <= i < |entries| ::
                   && entries[i].Ok?
                   && (ConfigSkipped(entries[i].value.path)
                       || (entries[i].value.config.Ok? && TargetDir(entries[i].value.config.value).Some?)))
             && (forall i, j | 0 <= i < |entries| && 0 <= j < |entries|
                   && ConfigObservation(entries[i], serialize).Seen?
                   && ConfigObservation(entries[j], serialize).Seen?
                   :: ConfigObservation(entries[i], serialize) == ConfigObservation(entries[j], serialize))
  {
    var obs := ConfigObservations(entries, serialize);
    assert |obs| == |entries| && forall i | 0 <= i < |entries| :: obs[i] == ConfigObservation(entries[i], serialize);
    BaselinePassIff(obs);
    UniformAt(obs);
  }

  /** An item the configuration test compares: a directory it includes, whose configuration
      was read and has a string `build.target-dir`. */
  predicate ConfigCompared(e: Entry) {
    && e.Ok? && !ConfigSkipped(e.value.path)
    && e.value.config.Ok? && TargetDir(e.value.config.value).Some?
  }

  /** The rewritten document of a compared item. */
  function RewrittenConfig(e: Entry): (r: Table)
    requires ConfigCompared(e)
    ensures TargetDir(r) == Some(ResolvedTargetDir(e.value.path, TargetDir(e.value.config.value).value))
    ensures SameExceptTargetDir(e.value.config.value, r)
  {
    RewriteTargetDir(e.value.config.value, e.value.path).value
  }

  /** When serialization tells documents apart, the configuration test passes exactly when
      every item is a directory, every included one has a rewritable configuration, and all
      included rewritten documents are equal: two examples whose `target-dir` values resolve to
      different locations make it fail. */
  lemma ConfigPassIffSameDocuments(entries: seq<Entry>, serialize: Table -> string)
    requires forall t1, t2 :: serialize(t1) == serialize(t2) ==> t1 == t2
    ensures BaselineVerdict(ConfigObservations(entries, serialize)).Pass?
        <==> && (forall i | 0 <= i < |entries| ::
                   entries[i].Ok? && (ConfigSkipped(entries[i].value.path) || ConfigCompared(entries[i])))
             && (forall i, j | 0 <= i < |entries| && 0 <= j < |entries|
                   && ConfigCompared(entries[i]) && ConfigCompared(entries[j])
                   :: RewrittenConfig(entries[i]) == RewrittenConfig(entries[j]))
  {
    ConfigPassIff(entries, serialize);
    forall i | 0 <= i < |entries|
      ensures ConfigObservation(entries[i], serialize).Seen? <==> ConfigCompared(entries[i])
      ensures ConfigCompared(entries[i])
              ==> ConfigObservation(entries[i], serialize) == Seen(serialize(RewrittenConfig(entries[i])))
    {
    }
  }

  /** Reordering the examples does not change whether the channel test passes. */
  lemma ChannelOrderIndependent(e1: seq<Entry>, e2: seq<Entry>)
    requires multiset(e1) == multiset(e2)
    ensures BaselineVerdict(ChannelObservations(e1)).Pass? <==> BaselineVerdict(ChannelObservations(e2)).Pass?
  {
    var o1, o2 := ChannelObservations(e1), ChannelObservations(e2);
    forall o ensures o in o1 <==> o in o2 {
      if o in o1 {
        var i :| 0 <= i < |o1| && o1[i] == o;
        assert e1[i] in multiset(e2);
        var j :| 0 <= j < |e2| && e2[j] == e1[i];
        assert o2[j] == o;
      }
      if o in o2 {
        var j :| 0 <= j < |o2| && o2[j] == o;
        assert e2[j] in multiset(e1);
        var i :| 0 <= i < |e1| && e1[i] == e2[j];
        assert o1[i] == o;
      }
    }
    BaselineSameMembers(o1, o2);
  }

  /** Reordering the examples does not change whether the configuration test passes. */
  lemma ConfigOrderIndependent(e1: seq<Entry>, e2: seq<Entry>, serialize: Table -> string)
    requires multiset(e1) == multiset(e2)
    ensures BaselineVerdict(ConfigObservations(e1, serialize)).Pass?
        <==> BaselineVerdict(ConfigObservations(e2, serialize)).Pass?
  {
    var o1, o2 := ConfigObservations(e1, serialize), ConfigObservations(e2, serialize);
    forall o ensures o in o1 <==> o in o2 {
      if o in o1 {
        var i :| 0 <= i < |o1| && o1[i] == o;
        assert e1[i] in multiset(e2);
        var j :| 0 <= j < |e2| && e2[j] == e1[i];
        assert o2[j] == o;
      }
      if o in o2 {
        var j :| 0 <= j < |o2| && o2[j] == o;
        assert e2[j] in multiset(e1);
        var i :| 0 <= i < |e1| && e1[i] == e2[j];
        assert o1[i] == o;
      }
    }
    BaselineSameMembers(o1, o2);
  }

  /** With no example left after exclusion, both baseline tests pass: nothing is compared. */
  lemma FullyExcludedPasses(entries: seq<Entry>, serialize: Table -> string)
    requires forall i | 0 <= i < |entries| :: entries[i].Ok?
    ensures (forall i | 0 <= i < |entries| :: ChannelSkipped(entries[i].value.path))
            ==> BaselineVerdict(ChannelObservations(entries)) == Pass
    ensures (forall i | 0 <= i < |entries| :: ConfigSkipped(entries[i].value.path))
            ==> BaselineVerdict(ConfigObservations(entries, serialize)) == Pass
  {
    BaselinePassIff(ChannelObservations(entries));
    BaselinePassIff(ConfigObservations(entries, serialize));
  }

  /** Exclusions are scoped to their test: an example the channel test skips still has its
      version checked, so a wrong version there still fails the version test. */
  lemma ChannelExclusionKeepsVersionCheck(entries: seq<Entry>, workspace: string, k: nat)
    requires k < |entries| && entries[k].Ok?
    requires ChannelSkipped(entries[k].value.path)
    requires entries[k].value.version.Ok? && entries[k].value.version.value != workspace
    ensures FirstFault(VersionFaults(entries, workspace)).Fail?
    ensures FirstFault(VersionFaults(entries, workspace)).at <= k
  {
    assert VersionFaults(entries, workspace)[k].Some?;
  }

  /** Exclusions are scoped to their test: an example the version test skips still takes part
      in the channel test, so a channel differing from another example's fails it. */
  lemma VersionExclusionKeepsChannelCheck(entries: seq<Entry>, k: nat, m: nat)
    requires k < |entries| && m < |entries| && entries[k].Ok? && entries[m].Ok?
    requires VersionSkipped(entries[k].value.path) && !ChannelSkipped(entries[m].value.path)
    requires entries[k].value.channel.Ok? && entries[m].value.channel.Ok?
    requires entries[k].value.channel != entries[m].value.channel
    ensures BaselineVerdict(ChannelObservations(entries)).Fail?
  {
    ChannelPassIff(entries);
  }

  /** When exactly one included example has a version other than the workspace's, the
      version test fails at that example and reports both versions. */
  lemma SingleVersionDeviation(entries: seq<Entry>, workspace: string, k: nat)
    requires forall i | 0 <= i < |entries| :: entries[i].Ok?
    requires k < |entries| && !VersionSkipped(entries[k].value.path)
    requires entries[k].value.version.Ok? && entries[k].value.version.value != workspace
    requires forall i | 0 <= i < |entries| && i != k ::
               VersionSkipped(entries[i].value.path) || entries[i].value.version == Ok(workspace)
    ensures FirstFault(VersionFaults(entries, workspace))
         == Fail(k, Mismatch(workspace, entries[k].value.version.value))
  {
    FirstFaultAt(VersionFaults(entries, workspace), k);
  }

  /** Versions `1.0.0`, `1.0.0`, `1.0.1` against workspace `1.0.0`: the version test fails at
      the third example, reporting both versions. */
  lemma VersionExample(a: Project, b: Project, c: Project)
    requires a.path == [Normal("A")] && b.path == [Normal("B")] && c.path == [Normal("C")]
    requires a.version == Ok("1.0.0") && b.version == Ok("1.0.0") && c.version == Ok("1.0.1")
    ensures FirstFault(VersionFaults([Ok(a), Ok(b), Ok(c)], "1.0.0")) == Fail(2, Mismatch("1.0.0", "1.0.1"))
  {
    var fs := VersionFaults([Ok(a), Ok(b), Ok(c)], "1.0.0");
    assert fs[0].None? && fs[1].None?;
    assert fs[2] == Some(Mismatch("1.0.0", "1.0.1"));
    FirstFaultAt(fs, 2);
  }

  /** The version test compares with a fixed reference, not a first-seen baseline: examples
      that all agree with each other still fail it when they disagree with the workspace. */
  lemma VersionIsNotABaseline(a: Project, b: Project)
    requires a.path == [Normal("A")] && b.path == [Normal("B")]
    requires a.version == Ok("2.0.0") && b.version == Ok("2.0.0")
    ensures FirstFault(VersionFaults([Ok(a), Ok(b)], "1.0.0")) == Fail(0, Mismatch("1.0.0", "2.0.0"))
    ensures BaselineVerdict([Seen("2.0.0"), Seen("2.0.0")]) == Pass
  {
    var fs := VersionFaults([Ok(a), Ok(b)], "1.0.0");
    assert fs[0] == Some(Mismatch("1.0.0", "2.0.0"));
    FirstFaultAt(fs, 0);
    BaselinePassIff([Seen("2.0.0"), Seen("2.0.0")]);
  }

  /** Two examples whose configurations agree apart from `build.target-dir`, with values naming
      the same location, produce the same text in the configuration test. */
  lemma EquivalentConfigsGiveSameText(p1: Project, p2: Project, serialize: Table -> string)
    requires !ConfigSkipped(p1.path) && !ConfigSkipped(p2.path)
    requires p1.config.Ok? && p2.config.Ok?
    requires TargetDir(p1.config.value).Some? && TargetDir(p2.config.value).Some?
    requires SameExceptTargetDir(p1.config.value, p2.config.value)
    requires ResolvedPath(p1.path, TargetDir(p1.config.value).value)
          == ResolvedPath(p2.path, TargetDir(p2.config.value).value)
    ensures ConfigObservation(Ok(p1), serialize).Seen?
    ensures ConfigObservation(Ok(p1), serialize) == ConfigObservation(Ok(p2), serialize)
  {
    SameLocationSameRewrite(p1.config.value, p1.path, p2.config.value, p2.path);
  }
}

=== FILE: config.dfy ===
/**
 * The rewrite that makes the `.cargo/config.toml` files of different examples comparable:
 * `build.target-dir`, a path relative to the example, is replaced by the lexically normal
 * absolute path it names, and nothing else in the document changes.
 */
module CargoConfig {
  import opened Wrappers
  import opened Paths
  import opened CargoPaths
  import opened Toml

  const BuildKey: string := "build"
  const TargetDirKey: string := "target-dir"

  /** The string under `build.target-dir`, when `build` is a table and `target-dir` in it a
      string value; otherwise nothing, and the rewrite's `unwrap` would panic. */
  function TargetDir(doc: Table): Option<string> {
    var build := AsTable(Get(doc, BuildKey));
    if build.None? then None else AsStr(Get(build.value, TargetDirKey))
  }

  /** `normalize_path(&path.join(target_dir))`: the location a `target-dir` value names for
      the example at `root`. */
  function ResolvedPath(root: Path, targetDir: string): Path {
    Normalize(Join(root, Components(targetDir)))
  }

  /** The text the rewrite stores: `to_string_lossy` of the resolved path. */
  function ResolvedTargetDir(root: Path, targetDir: string): string {
    Render(ResolvedPath(root, targetDir))
  }

  /** Both documents have a `build` table, and they agree on everything except, possibly,
      the item under `build.target-dir`. */
  predicate SameExceptTargetDir(d1: Table, d2: Table) {
    && BuildKey in d1 && BuildKey in d2
    && d1[BuildKey].TableItem? && d2[BuildKey].TableItem?
    && d1.Keys == d2.Keys
    && (forall k | k in d1 && k != BuildKey :: d1[k] == d2[k])
    && d1[BuildKey].t.Keys == d2[BuildKey].t.Keys
    && (forall k | k in d1[BuildKey].t && k != TargetDirKey :: d1[BuildKey].t[k] == d2[BuildKey].t[k])
  }

  /** The document after the rewrite, or nothing when `build.target-dir` is missing or is not
      a string. */
  function RewriteTargetDir(doc: Table, root: Path): (r: Option<Table>)
    ensures r.Some? <==> TargetDir(doc).Some?
    ensures r.Some? ==> TargetDir(r.value) == Some(ResolvedTargetDir(root, TargetDir(doc).value))
    ensures r.Some? ==> SameExceptTargetDir(doc, r.value)
  {
    match TargetDir(doc)
    case None => None
    case Some(targetDir) =>
      var build := doc[BuildKey].t;
      var value := ValueItem(Str(ResolvedTargetDir(root, targetDir)));
      Some(doc[BuildKey := TableItem(build[TargetDirKey := value])])
  }

  /** A parsed `DocumentMut`, which the configuration check edits in place. */
  class DocumentMut {
    var root: Table

    constructor (parsed: Table)
      ensures root == parsed
    {
      root := parsed;
    }

    /** Follows `build`, then `target-dir`, and overwrites the string found there with the
        resolved path; reports whether the chain of lookups reached a string. */
    method ResolveTargetDir(projectRoot: Path) returns (ok: bool)
      modifies this
      ensures ok <==> TargetDir(old(root)).Some?
      ensures root == if ok then RewriteTargetDir(old(root), projectRoot).value else old(root)
    {
      var build := Get(root, BuildKey);
      if build.Some? && build.value.TableItem? {
        var table := build.value.t;
        var item := Get(table, TargetDirKey);
        if item.Some? && item.value.ValueItem? && item.value.v.Str? {
          var targetDir := item.value.v.s;
          var value := ValueItem(Str(ResolvedTargetDir(projectRoot, targetDir)));
          root := root[BuildKey := TableItem(table[TargetDirKey := value])];
          return true;
        }
      }
      return false;
    }
  }

  /** The resolved path is normal and, for an example root with clean names, has clean names,
      so its text determines it. */
  lemma ResolvedPathShape(root: Path, targetDir: string)
    requires CleanNames(root)
    ensures IsNormal(ResolvedPath(root, targetDir)) && CleanNames(ResolvedPath(root, targetDir))
  {
    JoinCleanNames(root, Components(targetDir));
    NormalizeShape(Join(root, Components(targetDir)));
  }

  /** Two documents rewrite to the same document exactly when they agree apart from
      `build.target-dir` and their `target-dir` values resolve, each against its own example
      root, to the same location. */
  lemma RewriteAgreement(d1: Table, root1: Path, d2: Table, root2: Path)
    requires TargetDir(d1).Some? && TargetDir(d2).Some?
    requires CleanNames(root1) && CleanNames(root2)
    ensures RewriteTargetDir(d1, root1) == RewriteTargetDir(d2, root2)
        <==> SameExceptTargetDir(d1, d2)
             && ResolvedPath(root1, TargetDir(d1).value) == ResolvedPath(root2, TargetDir(d2).value)
  {
    var p1 := ResolvedPath(root1, TargetDir(d1).value);
    var p2 := ResolvedPath(root2, TargetDir(d2).value);
    ResolvedPathShape(root1, TargetDir(d1).value);
    ResolvedPathShape(root2, TargetDir(d2).value);
    RenderInjective(p1, p2);
    if SameExceptTargetDir(d1, d2) && p1 == p2 {
      SameLocationSameRewrite(d1, root1, d2, root2);
    }
  }

  /** Two documents that agree apart from `build.target-dir`, with values resolving to the same
      location, rewrite to the same document, whatever the example roots look like. */
  lemma SameLocationSameRewrite(d1: Table, root1: Path, d2: Table, root2: Path)
    requires TargetDir(d1).Some? && TargetDir(d2).Some?
    requires SameExceptTargetDir(d1, d2)
    requires ResolvedPath(root1, TargetDir(d1).value) == ResolvedPath(root2, TargetDir(d2).value)
    ensures RewriteTargetDir(d1, root1).Some?
    ensures RewriteTargetDir(d1, root1) == RewriteTargetDir(d2, root2)
  {
    var r1 := RewriteTargetDir(d1, root1).value;
    var r2 := RewriteTargetDir(d2, root2).value;
    var b1 := r1[BuildKey].t;
    var b2 := r2[BuildKey].t;
    assert b1.Keys == b2.Keys;
    assert forall k | k in b1 :: b1[k] == b2[k];
    assert b1 == b2;
    assert forall k | k in r1 :: r1[k] == r2[k];
    assert r1 == r2;
  }

  lemma JoinedNamesOfTarget()
    ensures JoinNames([Normal("target"), Normal("foo")]) == "target/foo"
  {
    assert [Normal("target"), Normal("foo")][1..] == [Normal("foo")];
  }

  lemma JoinedNamesOfExample()
    ensures JoinNames([Normal("A"), Normal("target"), Normal("foo")]) == "A/target/foo"
  {
    JoinedNamesOfTarget();
    assert [Normal("A"), Normal("target"), Normal("foo")][1..] == [Normal("target"), Normal("foo")];
  }

  lemma JoinedNamesOfExampleRoot()
    ensures JoinNames([Normal("examples"), Normal("A"), Normal("target"), Normal("foo")])
         == "examples/A/target/foo"
  {
    JoinedNamesOfExample();
    assert [Normal("examples"), Normal("A"), Normal("target"), Normal("foo")][1..]
        == [Normal("A"), Normal("target"), Normal("foo")];
  }

  lemma RenderedExample(names: Path)
    requires names == [Normal("examples"), Normal("A"), Normal("target"), Normal("foo")]
    ensures Render([RootDir] + names) == "/examples/A/target/foo"
  {
    RenderRooted(names);
    JoinedNamesOfExampleRoot();
  }

  /** A `target-dir` of `target/foo` in the example `/examples/A` becomes
      `/examples/A/target/foo`. */
  lemma ResolvedExample()
    ensures ResolvedTargetDir([RootDir, Normal("examples"), Normal("A")], "target/foo")
         == "/examples/A/target/foo"
  {
    var rel := [Normal("target"), Normal("foo")];
    assert Render(rel) == "target/foo";
    assert CleanName("target") && CleanName("foo");
    RenderComponents(rel);
    var names := [Normal("examples"), Normal("A"), Normal("target"), Normal("foo")];
    var p := [RootDir] + names;
    assert Join([RootDir, Normal("examples"), Normal("A")], rel) == p;
    NormalizeFixesNormal(p);
    RenderedExample(names);
  }
}

=== FILE: forbidden.dfy ===
/**
 * The scan for files that must not appear under the examples directory. A general rule on
 * file names holds everywhere; a rule on path suffixes holds everywhere except under the
 * allowed top-level directories. Matching is component-wise, as `Path` does it.
 */
module ForbiddenPaths {
  import opened Wrappers
  import opened Paths
  import opened Verdicts

  /** File names forbidden anywhere: `.gitignore`. */
  const GeneralNames: seq<string> := [".gitignore"]

  /** Path suffixes forbidden outside the allowed directories: the components of
      `.cargo/config.toml` and of `rust-toolchain`. */
  const SpecificSuffixes: seq<Path> := [[Normal(".cargo"), Normal("config.toml")], [Normal("rust-toolchain")]]

  /** Top-level directories exempt from the suffix rule: `experimental` and `testing`. */
  const AllowedDirs: seq<Path> := [[Normal("experimental")], [Normal("testing")]]

  /** A walk entry without its leading `./`: `strip_prefix("./").unwrap_or(path)`. */
  function Relative(p: Path): Path {
    match StripPrefix(p, [CurDir])
    case Some(rest) => rest
    case None => p
  }

  /** `allowed_dirs.iter().any(|d| path.starts_with(d))`. */
  predicate InAllowedDirectory(n: Path) {
    exists k | 0 <= k < |AllowedDirs| :: StartsWith(n, AllowedDirs[k])
  }

  /** The position of the first suffix in `suffixes` that `n` ends with, if any. */
  function FirstSuffix(n: Path, suffixes: seq<Path>): (r: Option<nat>)
    ensures r.None? <==> forall k | 0 <= k < |suffixes| :: !EndsWith(n, suffixes[k])
    ensures r.Some? ==> r.value < |suffixes| && EndsWith(n, suffixes[r.value])
    ensures r.Some? ==> forall m | 0 <= m < r.value :: !EndsWith(n, suffixes[m])
  {
    if suffixes == [] then None
    else if EndsWith(n, suffixes[0]) then Some(0)
    else
      match FirstSuffix(n, suffixes[1..])
      case None => None
      case Some(k) => Some(k + 1)
  }

  /** What the scan reports for one walk entry: the general rule is tried first, then, outside
      the allowed directories, the suffixes in order. */
  function PathFault(e: Result<Path, string>): Option<Fault> {
    match e
    case Err(msg) => Some(Unreadable(msg))
    case Ok(p) =>
      var n := Relative(p);
      if FileName(n).Some? && FileName(n).value in GeneralNames then Some(ForbiddenFile(n))
      else if InAllowedDirectory(n) then None
      else
        match FirstSuffix(n, SpecificSuffixes)
        case None => None
        case Some(k) => Some(ForbiddenSuffix(SpecificSuffixes[k], n))
  }

  function PathFaults(entries: seq<Result<Path, string>>): seq<Option<Fault>>
  {
    seq(|entries|, i requires 0 <= i < |entries| => PathFault(entries[i]))
  }

  /** The body of the scan for one entry of the walk: the general names, then, unless the
      entry lies in an allowed directory, the specific suffixes, each in order. */
  method ScanEntry(p: Path) returns (f: Option<Fault>)
    ensures f == PathFault(Ok(p))
  {
    var normalized := Relative(p);
    for k := 0 to |GeneralNames|
      invariant forall m | 0 <= m < k :: FileName(normalized) != Some(GeneralNames[m])
    {
      if FileName(normalized) == Some(GeneralNames[k]) {
        return Some(ForbiddenFile(normalized));
      }
    }
    var allowed := InAllowedDirectory(normalized);
    if !allowed {
      for k := 0 to |SpecificSuffixes|
        invariant forall m | 0 <= m < k :: !EndsWith(normalized, SpecificSuffixes[m])
      {
        if EndsWith(normalized, SpecificSuffixes[k]) {
          assert FirstSuffix(normalized, SpecificSuffixes) == Some(k);
          return Some(ForbiddenSuffix(SpecificSuffixes[k], normalized));
        }
      }
    }
    return None;
  }

  /** The `examples_do_not_contain_forbidden_paths` test over the entries of the walk of `.`,
      in walk order. */
  method ScanForbiddenPaths(entries: seq<Result<Path, string>>) returns (v: Verdict)
    ensures v == FirstFault(PathFaults(entries))
  {
    for i := 0 to |entries|
      invariant forall j | 0 <= j < i :: PathFault(entries[j]).None?
    {
      var f: Option<Fault>;
      if entries[i].Err? {
        f := Some(Unreadable(entries[i].error));
      } else {
        f := ScanEntry(entries[i].value);
      }
      if f.Some? {
        v := Fail(i, f.value);
        FirstFaultAt(PathFaults(entries), i);
        return;
      }
    }
    v := Pass;
  }

  lemma AllowedDirectoryIff(n: Path)
    ensures InAllowedDirectory(n)
        <==> StartsWith(n, [Normal("experimental")]) || StartsWith(n, [Normal("testing")])
  {
    if StartsWith(n, [Normal("experimental")]) {
      assert StartsWith(n, AllowedDirs[0]);
    }
    if StartsWith(n, [Normal("testing")]) {
      assert StartsWith(n, AllowedDirs[1]);
    }
  }

  lemma SpecificSuffixIff(n: Path)
    ensures FirstSuffix(n, SpecificSuffixes).Some?
        <==> EndsWith(n, [Normal(".cargo"), Normal("config.toml")]) || EndsWith(n, [Normal("rust-toolchain")])
  {
    var r := FirstSuffix(n, SpecificSuffixes);
    if r.None? {
      assert !EndsWith(n, SpecificSuffixes[0]) && !EndsWith(n, SpecificSuffixes[1]);
    }
  }

  /** An entry is a violation exactly when its name is `.gitignore`, or when it lies outside
      `experimental` and `testing` and ends with `.cargo/config.toml` or `rust-toolchain`. */
  lemma PathFaultIff(p: Path)
    ensures var n := Relative(p);
      PathFault(Ok(p)).Some?
      <==> || FileName(n) == Some(".gitignore")
           || (&& !StartsWith(n, [Normal("experimental")]) && !StartsWith(n, [Normal("testing")])
               && (EndsWith(n, [Normal(".cargo"), Normal("config.toml")])
                   || EndsWith(n, [Normal("rust-toolchain")])))
  {
    var n := Relative(p);
    AllowedDirectoryIff(n);
    SpecificSuffixIff(n);
  }

  /** Inside an allowed directory only the general rule applies: `.gitignore` is still
      forbidden there, the specific suffixes are not. */
  lemma AllowedDirectoriesExemptOnlyFromSuffixes(p: Path)
    requires InAllowedDirectory(Relative(p))
    ensures PathFault(Ok(p)).Some? <==> FileName(Relative(p)) == Some(".gitignore")
    ensures PathFault(Ok(p)).Some? ==> PathFault(Ok(p)) == Some(ForbiddenFile(Relative(p)))
  {
  }

  /** `./testing/marker/.gitignore` is a violation; `./testing/marker/.cargo/config.toml` is
      not; `./experimental2/x/.cargo/config.toml` is, since `experimental2` is not the
      component `experimental`. */
  lemma ScannerExamples()
    ensures PathFault(Ok([CurDir, Normal("testing"), Normal("marker"), Normal(".gitignore")]))
         == Some(ForbiddenFile([Normal("testing"), Normal("marker"), Normal(".gitignore")]))
    ensures PathFault(Ok([CurDir, Normal("testing"), Normal("marker"), Normal(".cargo"), Normal("config.toml")]))
         == None
    ensures PathFault(Ok([CurDir, Normal("experimental2"), Normal("x"), Normal(".cargo"), Normal("config.toml")]))
         == Some(ForbiddenSuffix([Normal(".cargo"), Normal("config.toml")],
                                 [Normal("experimental2"), Normal("x"), Normal(".cargo"), Normal("config.toml")]))
  {
    GitignoreExample();
    AllowedConfigExample();
    LookalikeDirectoryExample();
  }

  lemma GitignoreExample()
    ensures PathFault(Ok([CurDir, Normal("testing"), Normal("marker"), Normal(".gitignore")]))
         == Some(ForbiddenFile([Normal("testing"), Normal("marker"), Normal(".gitignore")]))
  {
    var a := [Normal("testing"), Normal("marker"), Normal(".gitignore")];
    assert Relative([CurDir] + a) == a;
    assert FileName(a) == Some(GeneralNames[0]);
  }

  lemma AllowedConfigExample()
    ensures PathFault(Ok([CurDir, Normal("testing"), Normal("marker"), Normal(".cargo"), Normal("config.toml")]))
         == None
  {
    var a := [Normal("testing"), Normal("marker"), Normal(".cargo"), Normal("config.toml")];
    assert Relative([CurDir] + a) == a;
    assert StartsWith(a, AllowedDirs[1]);
  }

  lemma LookalikeDirectoryExample()
    ensures PathFault(Ok([CurDir, Normal("experimental2"), Normal("x"), Normal(".cargo"), Normal("config.toml")]))
         == Some(ForbiddenSuffix([Normal(".cargo"), Normal("config.toml")],
                                 [Normal("experimental2"), Normal("x"), Normal(".cargo"), Normal("config.toml")]))
  {
    var b := [Normal("experimental2"), Normal("x"), Normal(".cargo"), Normal("config.toml")];
    assert Relative([CurDir] + b) == b;
    assert b[0] != Normal("experimental") && b[0] != Normal("testing") by {
      assert |b[0].name| == 13;
    }
    assert !InAllowedDirectory(b) by { AllowedDirectoryIff(b); }
    assert "config.toml"[0] != ".gitignore"[0];
    assert FileName(b) == Some("config.toml") && "config.toml" !in GeneralNames;
    assert EndsWith(b, SpecificSuffixes[0]);
  }

  /** The rule constants are the components of the source's path strings. */
  lemma ConfigSuffixIsComponentsOfItsText()
    ensures Components(".cargo/config.toml") == SpecificSuffixes[0]
  {
    assert CleanName(".cargo") && CleanName("config.toml");
    assert Render(SpecificSuffixes[0]) == ".cargo/config.toml";
    RenderComponents(SpecificSuffixes[0]);
  }

  lemma ToolchainSuffixIsComponentsOfItsText()
    ensures Components("rust-toolchain") == SpecificSuffixes[1]
  {
    assert CleanName("rust-toolchain");
    RenderComponents(SpecificSuffixes[1]);
  }

  lemma ExperimentalIsComponentsOfItsText()
    ensures Components("experimental") == AllowedDirs[0]
  {
    assert CleanName("experimental");
    RenderComponents(AllowedDirs[0]);
  }

  lemma TestingIsComponentsOfItsText()
    ensures Components("testing") == AllowedDirs[1]
  {
    assert CleanName("testing");
    RenderComponents(AllowedDirs[1]);
  }
}

=== FILE: normalize.dfy ===
/**
 * Lexical path normalization in the manner of `cargo_util::paths::normalize_path`: `.`
 * disappears, `..` drops the name before it, a root stays. The file system is never asked,
 * so the path need not exist.
 */
module CargoPaths {
  import opened Paths

  /** `PathBuf::pop` on a buffer built only from a root and names: drops a trailing name, and
      leaves a bare root or an empty buffer as it is. */
  function Pop(acc: Path): Path {
    if acc != [] && acc[|acc| - 1].Normal? then acc[..|acc| - 1] else acc
  }

  /** One iteration of the normalization loop. */
  function Step(acc: Path, c: Component): Path {
    match c
    case RootDir => [RootDir]
    case CurDir => acc
    case ParentDir => Pop(acc)
    case Normal(n) => acc + [Normal(n)]
  }

  /** The normalization loop from accumulator `acc` over the components `p`. */
  function NormalizeOnto(acc: Path, p: Path): (r: Path)
    requires IsNormal(acc)
    ensures IsNormal(r)
    ensures CleanNames(acc) && CleanNames(p) ==> CleanNames(r)
    ensures acc != [] && acc[0].RootDir? ==> r != [] && r[0].RootDir?
    decreases |p|
  {
    if p == [] then acc
    else
      var next := Step(acc, p[0]);
      assert IsNormal(next);
      assert CleanNames(acc) && CleanNames(p) ==> CleanNames(next);
      NormalizeOnto(next, p[1..])
  }

  /** `normalize_path(p)`. */
  function Normalize(p: Path): Path
  {
    NormalizeOnto([], p)
  }

  /** The normal form has only a leading root and names; it keeps a root, and keeps names clean. */
  lemma NormalizeShape(p: Path)
    ensures IsNormal(Normalize(p))
    ensures CleanNames(p) ==> CleanNames(Normalize(p))
    ensures p != [] && p[0].RootDir? ==> Normalize(p) != [] && Normalize(p)[0].RootDir?
  {
    if p != [] && p[0].RootDir? {
      assert Normalize(p) == NormalizeOnto([RootDir], p[1..]);
    }
  }

  /** The loop leaves the rest of an already normal path as it is. */
  lemma {:induction false} NormalizeOntoNormal(acc: Path, p: Path)
    requires IsNormal(acc + p)
    ensures IsNormal(acc) && NormalizeOnto(acc, p) == acc + p
    decreases |p|
  {
    assert forall i | 0 <= i < |acc| :: acc[i] == (acc + p)[i];
    if p != [] {
      assert p[0] == (acc + p)[|acc|];
      assert Step(acc, p[0]) == acc + [p[0]];
      assert (acc + [p[0]]) + p[1..] == acc + p;
      NormalizeOntoNormal(acc + [p[0]], p[1..]);
    }
  }

  /** A path already in normal form is its own normalization. */
  lemma NormalizeFixesNormal(p: Path)
    requires IsNormal(p)
    ensures Normalize(p) == p
  {
    assert [] + p == p;
    NormalizeOntoNormal([], p);
  }

  /** Normalizing twice is normalizing once. */
  lemma NormalizeIdempotent(p: Path)
    ensures Normalize(Normalize(p)) == Normalize(p)
  {
    NormalizeShape(p);
    NormalizeFixesNormal(Normalize(p));
  }

  /** `..` cannot climb above the root: `/..` normalizes to `/`. */
  lemma ParentOfRootIsRoot()
    ensures Normalize([RootDir, ParentDir]) == [RootDir]
  {
  }
}

=== FILE: paths.dfy ===
/**
 * Unix paths as Rust's `std::path` sees them: a path is the list of its components, and
 * `starts_with`, `ends_with`, `file_name`, `strip_prefix` and `join` work component by
 * component, never on the raw text.
 */
module Paths {
  import opened Wrappers

  /** One item of `Path::components` on Unix (there is no drive prefix). */
  datatype Component = RootDir | CurDir | ParentDir | Normal(name: string)

  type Path = seq<Component>

  /** A name the component parser can produce: non-empty, no separator, not `.` or `..`. */
  predicate CleanName(n: string) {
    n != "" && n != "." && n != ".." && '/' !in n
  }

  predicate CleanNames(p: Path) {
    forall i | 0 <= i < |p| :: p[i].Normal? ==> CleanName(p[i].name)
  }

  /** The shape of a lexically normal path: an optional leading root, then plain names. */
  predicate IsNormal(p: Path) {
    forall i | 0 <= i < |p| :: p[i].Normal? || (p[i].RootDir? && i == 0)
  }

  // ---------------------------------------------------------------------------------------
  // Parsing path text into components

  /** Length of the leading run of non-separator characters of `s`. */
  function Run(s: string): (n: nat)
    ensures n <= |s|
    ensures forall i | 0 <= i < n :: s[i] != '/'
    ensures n < |s| ==> s[n] == '/'
  {
    if s == [] || s[0] == '/' then 0 else 1 + Run(s[1..])
  }

  /** The maximal separator-free pieces of `s`, in order; repeated and trailing separators
      produce no empty piece. */
  function Pieces(s: string): (ps: seq<string>)
    ensures forall i | 0 <= i < |ps| :: ps[i] != "" && '/' !in ps[i]
    decreases |s|
  {
    if s == [] then []
    else if s[0] == '/' then Pieces(s[1..])
    else
      var n := Run(s);
      assert forall c | c in s[..n] :: c != '/';
      [s[..n]] + Pieces(s[n..])
  }

  /** Pieces after the first as components: `.` vanishes, `..` is the parent directory. */
  function Segments(ps: seq<string>): (p: Path)
    requires forall i | 0 <= i < |ps| :: ps[i] != "" && '/' !in ps[i]
    ensures CleanNames(p)
    ensures forall i | 0 <= i < |p| :: p[i].Normal? || p[i].ParentDir?
  {
    if ps == [] then []
    else if ps[0] == "." then Segments(ps[1..])
    else if ps[0] == ".." then [ParentDir] + Segments(ps[1..])
    else [Normal(ps[0])] + Segments(ps[1..])
  }

  /** `Path::new(s).components()`: a leading `/` is the root; a leading `.` is kept only when
      the path is relative and begins with it; every other `.` disappears. */
  function Components(s: string): (p: Path)
    ensures CleanNames(p)
    ensures forall i | 0 < i < |p| :: p[i].Normal? || p[i].ParentDir?
  {
    var rest := Segments(Pieces(s));
    if |s| > 0 && s[0] == '/' then [RootDir] + rest
    else if s == "." || (|s| >= 2 && s[0] == '.' && s[1] == '/') then [CurDir] + rest
    else rest
  }

  // ---------------------------------------------------------------------------------------
  // Rendering a path back to text

  function Name(c: Component): string {
    match c
    case RootDir => "/"
    case CurDir => "."
    case ParentDir => ".."
    case Normal(n) => n
  }

  function JoinNames(p: Path): string {
    if p == [] then ""
    else if |p| == 1 then Name(p[0])
    else Name(p[0]) + "/" + JoinNames(p[1..])
  }

  /** For a normal path (`IsNormal`), `to_string_lossy` of the `PathBuf` obtained by pushing
      the components of `p` onto an empty one: a root shows as a leading `/`, names are
      separated by `/`. Only normal paths are rendered; a root after the first position would
      replace the buffer in `PathBuf::push`, which this text does not reflect. */
  function Render(p: Path): string {
    if p != [] && p[0].RootDir? then "/" + JoinNames(p[1..]) else JoinNames(p)
  }

  // ---------------------------------------------------------------------------------------
  // Component-wise queries

  /** `Path::file_name`: the last component, when it is a plain name. */
  function FileName(p: Path): Option<string> {
    if p != [] && p[|p| - 1].Normal? then Some(p[|p| - 1].name) else None
  }

  /** `Path::starts_with`: `base` is a component-wise prefix of `p`. */
  predicate StartsWith(p: Path, base: Path) {
    base <= p
  }

  /** `Path::ends_with`: `child` is a component-wise suffix of `p`. */
  predicate EndsWith(p: Path, child: Path) {
    |child| <= |p| && p[|p| - |child|..] == child
  }

  /** `Path::strip_prefix`: what follows `base`, when `p` starts with it. */
  function StripPrefix(p: Path, base: Path): Option<Path> {
    if StartsWith(p, base) then Some(p[|base|..]) else None
  }

  /** `base.join(rel)`: an absolute `rel` replaces `base`; otherwise `rel` follows `base`, and
      a leading `.` of `rel` vanishes once it is inside the joined path. */
  function Join(base: Path, rel: Path): Path {
    if rel != [] && rel[0].RootDir? then rel
    else if base == [] then rel
    else if rel != [] && rel[0].CurDir? then base + rel[1..]
    else base + rel
  }

  // ---------------------------------------------------------------------------------------
  // Lemmas

  /** Joining keeps every name clean when both sides have clean names. */
  lemma JoinCleanNames(base: Path, rel: Path)
    requires CleanNames(base) && CleanNames(rel)
    ensures CleanNames(Join(base, rel))
  {
    if rel != [] && rel[0].RootDir? {
    } else if base == [] {
    } else if rel != [] && rel[0].CurDir? {
      var j := base + rel[1..];
      forall i | 0 <= i < |j| && j[i].Normal? ensures CleanName(j[i].name) {
        if i >= |base| { assert j[i] == rel[i - |base| + 1]; }
      }
    } else {
      var j := base + rel;
      forall i | 0 <= i < |j| && j[i].Normal? ensures CleanName(j[i].name) {
        if i >= |base| { assert j[i] == rel[i - |base|]; }
      }
    }
  }

  /** The run of a name followed by a separator is exactly the name. */
  lemma {:induction false} RunOfName(n: string, rest: string)
    requires '/' !in n
    ensures Run(n + rest) >= |n|
    ensures |rest| > 0 && rest[0] == '/' ==> Run(n + rest) == |n|
  {
    if n != [] {
      assert n[0] in n;
      assert (n + rest)[1..] == n[1..] + rest;
      assert '/' !in n[1..] by {
        forall c | c in n[1..] ensures c in n { }
      }
      RunOfName(n[1..], rest);
    }
  }

  /** The names of a path made only of clean names. */
  function NamesOf(p: Path): (ns: seq<string>)
    requires forall i | 0 <= i < |p| :: p[i].Normal? && CleanName(p[i].name)
    ensures |ns| == |p| && forall i | 0 <= i < |p| :: ns[i] == p[i].name
    ensures forall i | 0 <= i < |ns| :: CleanName(ns[i])
  {
    if p == [] then [] else [p[0].name] + NamesOf(p[1..])
  }

  /** Splitting the text of a list of clean names gives the names back. */
  lemma {:induction false} PiecesOfJoinNames(p: Path)
    requires forall i | 0 <= i < |p| :: p[i].Normal? && CleanName(p[i].name)
    ensures Pieces(JoinNames(p)) == NamesOf(p)
  {
    if p == [] {
    } else {
      var n := p[0].name;
      assert n[0] != '/' by { assert n[0] in n; }
      if |p| == 1 {
        RunOfName(n, "");
        assert n + "" == n;
        assert n[|n|..] == [];
      } else {
        var tail := JoinNames(p[1..]);
        var s := n + ("/" + tail);
        assert JoinNames(p) == s;
        RunOfName(n, "/" + tail);
        assert s[..|n|] == n;
        assert s[|n|..] == "/" + tail;
        assert ("/" + tail)[1..] == tail;
        PiecesOfJoinNames(p[1..]);
      }
    }
  }

  /** Classifying the pieces of clean names gives the names back as components. */
  lemma {:induction false} SegmentsOfNames(p: Path)
    requires forall i | 0 <= i < |p| :: p[i].Normal? && CleanName(p[i].name)
    ensures Segments(NamesOf(p)) == p
  {
    if p != [] {
      var names := NamesOf(p);
      assert names[1..] == seq(|p[1..]|, i requires 0 <= i < |p[1..]| => p[1..][i].name);
      SegmentsOfNames(p[1..]);
      assert p == [Normal(names[0])] + p[1..];
    }
  }

  /** The text of one or more clean names has none of the shapes the parser treats specially:
      no leading `/`, not `.`, no leading `./`. */
  lemma NamesTextIsPlain(p: Path)
    requires p != [] && forall i | 0 <= i < |p| :: p[i].Normal? && CleanName(p[i].name)
    ensures var s := JoinNames(p);
      && |s| > 0 && s[0] != '/' && s != "."
      && !(|s| >= 2 && s[0] == '.' && s[1] == '/')
  {
    var n := p[0].name;
    var s := JoinNames(p);
    assert n[0] != '/' by { assert n[0] in n; }
    if |p| == 1 {
      assert s == n;
      if |n| >= 2 { assert n[1] in n; }
    } else {
      assert s == n + ("/" + JoinNames(p[1..]));
      assert s[0] == n[0];
      if |n| >= 2 { assert s[1] == n[1] && n[1] in n; }
      if |n| == 1 { assert s[1] == '/'; assert n != "."; }
    }
  }

  /** Parsing the text of one or more clean names gives the names back. */
  lemma NamesComponents(p: Path)
    requires p != [] && forall i | 0 <= i < |p| :: p[i].Normal? && CleanName(p[i].name)
    ensures Components(JoinNames(p)) == p
  {
    PiecesOfJoinNames(p);
    SegmentsOfNames(p);
    NamesTextIsPlain(p);
  }

  /** Parsing `/` followed by the text of clean names gives the root and the names back. */
  lemma RootedComponents(q: Path)
    requires forall i | 0 <= i < |q| :: q[i].Normal? && CleanName(q[i].name)
    ensures Components("/" + JoinNames(q)) == [RootDir] + q
  {
    PiecesOfJoinNames(q);
    SegmentsOfNames(q);
    var s := "/" + JoinNames(q);
    assert s[1..] == JoinNames(q);
  }

  /** Parsing the text of a normal path with clean names gives the path back. */
  lemma RenderComponents(p: Path)
    requires IsNormal(p) && CleanNames(p)
    ensures Components(Render(p)) == p
  {
    if p == [] {
    } else if p[0].RootDir? {
      var q := p[1..];
      assert forall i | 0 <= i < |q| :: q[i] == p[i + 1];
      RootedComponents(q);
      assert p == [RootDir] + q;
    } else {
      assert forall i | 0 <= i < |p| :: p[i].Normal? && CleanName(p[i].name);
      NamesComponents(p);
    }
  }

  /** A root followed by names renders as `/` and the names' text. */
  lemma RenderRooted(names: Path)
    ensures Render([RootDir] + names) == "/" + JoinNames(names)
  {
    assert ([RootDir] + names)[1..] == names;
  }

  /** Two normal paths with clean names render to the same text only if they are equal. */
  lemma RenderInjective(p: Path, q: Path)
    requires IsNormal(p) && CleanNames(p) && IsNormal(q) && CleanNames(q)
    ensures Render(p) == Render(q) <==> p == q
  {
    if Render(p) == Render(q) {
      RenderComponents(p);
      RenderComponents(q);
    }
  }
}

=== FILE: toml.dfy ===
/**
 * The part of a `toml_edit` document the checks navigate: tables of items, items holding
 * values or tables, values of the TOML kinds. Formatting (whitespace, comments, key order)
 * is not represented.
 */
module Toml {
  import opened Wrappers

  /** `toml_edit::Value`. Floats and datetimes are kept as their literal text. */
  datatype Value =
    | Str(s: string)
    | Integer(i: int)
    | Float(literal: string)
    | Boolean(b: bool)
    | Datetime(literal: string)
    | Array(elems: seq<Value>)
    | InlineTable(fields: map<string, Value>)

  /** `toml_edit::Item`: nothing, a value, a `[table]`, or an `[[array of tables]]`. */
  datatype Item =
    | NoItem
    | ValueItem(v: Value)
    | TableItem(t: map<string, Item>)
    | ArrayOfTables(tables: seq<map<string, Item>>)

  type Table = map<string, Item>

  /** `Table::get` and `Table::get_mut`: the item under `key`, unless it is absent or
      `Item::None`. */
  function Get(t: Table, key: string): Option<Item> {
    if key in t && !t[key].NoItem? then Some(t[key]) else None
  }

  /** `Item::as_table`: only a `[table]` item is a table (an inline table is a value). */
  function AsTable(item: Option<Item>): Option<Table> {
    if item.Some? && item.value.TableItem? then Some(item.value.t) else None
  }

  /** `Item::as_array`: the elements of an item holding an array value. */
  function AsArray(item: Option<Item>): Option<seq<Value>> {
    if item.Some? && item.value.ValueItem? && item.value.v.Array? then Some(item.value.v.elems)
    else None
  }

  /** `Item::as_value` followed by `Value::as_str`. */
  function AsStr(item: Option<Item>): Option<string> {
    if item.Some? && item.value.ValueItem? && item.value.v.Str? then Some(item.value.v.s) else None
  }

  /** `iter().map(Value::as_str).collect::<Option<Vec<_>>>()`: the strings of an array, or
      nothing as soon as one element is not a string. */
  function AllStrings(vs: seq<Value>): (r: Option<seq<string>>)
    ensures r.Some? <==> forall i | 0 <= i < |vs| :: vs[i].Str?
    ensures r.Some? ==> |r.value| == |vs| && forall i | 0 <= i < |vs| :: vs[i] == Str(r.value[i])
  {
    if vs == [] then Some([])
    else if !vs[0].Str? then None
    else
      match AllStrings(vs[1..])
      case None => None
      case Some(rest) => Some([vs[0].s] + rest)
  }
}

=== FILE: verdicts.dfy ===
/**
 * How a check ends. Each check walks its items in enumeration order and stops at the first
 * panic (a failed `unwrap`, `assert_eq!` or `assert_ne!`, or an explicit `panic!`); the model
 * reports that item's position and the reason instead of panicking.
 */
module Verdicts {
  import opened Wrappers
  import opened Paths

  datatype Fault =
    | Unreadable(reason: string)                // the enumeration or the walk yielded an error
    | Collaborator(reason: string)              // metadata, a file read, a parse or a toolchain query failed
    | NoFileName                                // the example path has no final name
    | TestsFailed(example: string)              // `cargo test` in the example did not succeed
    | Mismatch(expected: string, found: string) // a value differs from the one it must equal
    | TargetDirUnusable                         // `build.target-dir` missing or not a string
    | ComponentsUnusable                        // `toolchain.components` missing or not an array
    | ComponentNotString                        // an element of `toolchain.components` is not a string
    | RustSrcRequired                           // `toolchain.components` lists `rust-src`
    | ForbiddenFile(path: Path)                 // a generally forbidden file name
    | ForbiddenSuffix(suffix: Path, path: Path) // a forbidden path outside the allowed directories

  datatype Verdict = Pass | Fail(at: nat, fault: Fault)

  /** The verdict of a check whose items have the faults `fs` (`None` for an item that passes):
      the first fault, or a pass when there is none. */
  function FirstFault(fs: seq<Option<Fault>>): (v: Verdict)
    ensures v.Pass? <==> forall i | 0 <= i < |fs| :: fs[i].None?
    ensures v.Fail? ==> v.at < |fs| && fs[v.at] == Some(v.fault)
    ensures v.Fail? ==> forall j | 0 <= j < v.at :: fs[j].None?
  {
    if fs == [] then Pass
    else if fs[0].Some? then Fail(0, fs[0].value)
    else
      match FirstFault(fs[1..])
      case Pass => Pass
      case Fail(k, f) => Fail(k + 1, f)
  }

  /** The step a check loop takes when item `i` is its first fault. */
  lemma FirstFaultAt(fs: seq<Option<Fault>>, i: nat)
    requires i < |fs| && fs[i].Some?
    requires forall j | 0 <= j < i :: fs[j].None?
    ensures FirstFault(fs) == Fail(i, fs[i].value)
  {
  }

  // ---------------------------------------------------------------------------------------
  // Checks against a first-seen baseline

  /** What a baseline check learns from one item: nothing (the item is excluded), a fault,
      or a value. */
  datatype Observation = Skipped | Broken(fault: Fault) | Seen(value: string)

  /** The `prev` a baseline loop holds after reading `obs` without a fault: the first value seen. */
  function FirstSeen(obs: seq<Observation>): Option<string> {
    if obs == [] then None
    else if obs[0].Seen? then Some(obs[0].value)
    else FirstSeen(obs[1..])
  }

  /** The fault of one item against the baseline held before it. */
  function StepFault(o: Observation, baseline: Option<string>): Option<Fault> {
    match o
    case Skipped => None
    case Broken(f) => Some(f)
    case Seen(v) =>
      if baseline.Some? && baseline.value != v then Some(Mismatch(baseline.value, v)) else None
  }

  function BaselineFaults(obs: seq<Observation>): seq<Option<Fault>>
  {
    seq(|obs|, i requires 0 <= i < |obs| => StepFault(obs[i], FirstSeen(obs[..i])))
  }

  /** The verdict of a loop that records the first value it sees and asserts every later value
      equal to it. */
  function BaselineVerdict(obs: seq<Observation>): Verdict {
    FirstFault(BaselineFaults(obs))
  }

  /** No item is broken, and all seen values are equal: a condition on the items as a
      collection, whatever their order. */
  predicate Uniform(obs: seq<Observation>) {
    && (forall o | o in obs :: !o.Broken?)
    && (forall o1, o2 | o1 in obs && o2 in obs && o1.Seen? && o2.Seen? :: o1.value == o2.value)
  }

  lemma {:induction false} FirstSeenAppend(a: seq<Observation>, b: seq<Observation>)
    ensures FirstSeen(a + b) == if FirstSeen(a).Some? then FirstSeen(a) else FirstSeen(b)
  {
    if a != [] {
      assert (a + b)[0] == a[0];
      assert (a + b)[1..] == a[1..] + b;
      FirstSeenAppend(a[1..], b);
      if !a[0].Seen? {
        assert FirstSeen(a + b) == FirstSeen(a[1..] + b);
        assert FirstSeen(a) == FirstSeen(a[1..]);
      }
    } else {
      assert a + b == b;
    }
  }

  /** Extending the items read by one: the baseline is set by the first value and then kept. */
  lemma FirstSeenExtend(obs: seq<Observation>, i: nat)
    requires i < |obs|
    ensures FirstSeen(obs[..i + 1])
         == if FirstSeen(obs[..i]).Some? then FirstSeen(obs[..i])
            else if obs[i].Seen? then Some(obs[i].value) else None
  {
    assert obs[..i + 1] == obs[..i] + [obs[i]];
    FirstSeenAppend(obs[..i], [obs[i]]);
  }

  /** Once a baseline is recorded it never changes: it is the first value of all the items. */
  lemma FirstSeenStable(obs: seq<Observation>, i: nat)
    requires i <= |obs| && FirstSeen(obs[..i]).Some?
    ensures FirstSeen(obs) == FirstSeen(obs[..i])
  {
    assert obs == obs[..i] + obs[i..];
    FirstSeenAppend(obs[..i], obs[i..]);
  }

  /** A recorded baseline is the value of some item. */
  lemma {:induction false} FirstSeenOccurs(obs: seq<Observation>)
    requires FirstSeen(obs).Some?
    ensures Seen(FirstSeen(obs).value) in obs
  {
    if !obs[0].Seen? {
      FirstSeenOccurs(obs[1..]);
    }
  }

  /** A baseline check passes exactly when no item is broken and every seen value equals every
      other: it is the "all equal" property, not a property of the first item. */
  lemma BaselinePassIff(obs: seq<Observation>)
    ensures BaselineVerdict(obs).Pass? <==> Uniform(obs)
  {
    var fs := BaselineFaults(obs);
    assert |fs| == |obs| && forall i | 0 <= i < |obs| :: fs[i] == StepFault(obs[i], FirstSeen(obs[..i]));
    if BaselineVerdict(obs).Pass? {
      forall i | 0 <= i < |obs| && obs[i].Seen?
        ensures FirstSeen(obs).Some? && obs[i].value == FirstSeen(obs).value
      {
        FirstSeenExtend(obs, i);
        assert fs[i].None?;
        FirstSeenStable(obs, i + 1);
      }
      forall o1, o2 | o1 in obs && o2 in obs && o1.Seen? && o2.Seen?
        ensures o1.value == o2.value
      {
        var i1 :| 0 <= i1 < |obs| && obs[i1] == o1;
        var i2 :| 0 <= i2 < |obs| && obs[i2] == o2;
      }
    }
    if Uniform(obs) {
      forall i | 0 <= i < |obs| ensures fs[i].None? {
        assert obs[i] in obs;
        var b := FirstSeen(obs[..i]);
        if b.Some? && obs[i].Seen? {
          FirstSeenOccurs(obs[..i]);
          assert Seen(b.value) in obs by {
            var k :| 0 <= k < i && obs[..i][k] == Seen(b.value);
            assert obs[k] == Seen(b.value);
          }
        }
      }
    }
  }

  /** Whether a baseline check passes depends only on which observations occur, not on how
      often or in what order. */
  lemma BaselineSameMembers(a: seq<Observation>, b: seq<Observation>)
    requires forall o :: o in a <==> o in b
    ensures BaselineVerdict(a).Pass? <==> BaselineVerdict(b).Pass?
  {
    BaselinePassIff(a);
    BaselinePassIff(b);
  }

  /** Reordering the items does not change whether a baseline check passes; only which item
      supplies the baseline, and so which mismatch is reported, depends on the order. */
  lemma BaselineOrderIndependent(a: seq<Observation>, b: seq<Observation>)
    requires multiset(a) == multiset(b)
    ensures BaselineVerdict(a).Pass? <==> BaselineVerdict(b).Pass?
  {
    assert forall o :: o in a <==> o in multiset(a);
    assert forall o :: o in b <==> o in multiset(b);
    BaselineSameMembers(a, b);
  }

  /** A reported mismatch compares against the first value seen in the whole enumeration,
      never against a later one. */
  lemma MismatchAgainstFirstSeen(obs: seq<Observation>)
    requires forall i | 0 <= i < |obs| && obs[i].Broken? :: !obs[i].fault.Mismatch?
    requires BaselineVerdict(obs).Fail? && BaselineVerdict(obs).fault.Mismatch?
    ensures var v := BaselineVerdict(obs);
      && FirstSeen(obs) == Some(v.fault.expected)
      && obs[v.at] == Seen(v.fault.found)
      && v.fault.expected != v.fault.found
  {
    var v := BaselineVerdict(obs);
    var fs := BaselineFaults(obs);
    assert fs[v.at] == Some(v.fault);
    assert obs[v.at].Seen?;
    FirstSeenStable(obs, v.at);
  }
}

=== FILE: wrappers.dfy ===
/** The optional and fallible values the model passes around. */
module Wrappers {

  datatype Option<+T> = None | Some(value: T)

  /** What a collaborator hands back: a value, or the error that `unwrap` would panic on. */
  datatype Result<+T, +E> = Ok(value: T) | Err(error: E)
}
